=== FILE: README.md ===
# Package manager panel for Advanced Scene Manager — a Dafny model

This project models the decision logic of the Advanced Scene Manager extension for
the Unity Package Manager window. The extension lists a fixed catalogue of related packages.
A plugin is added to or removed from the project's `Packages/manifest.json` by editing its text.
A dependency is only ever added: once installed, it shows a checkmark instead of a button.
An example's repository is opened in the browser.

The model has four modules, one file each:

- `strings.dfy` — module `Strings`. These are the `System.String` operations the code relies on, modelled
  with ordinal (character-by-character) comparison: `Contains`, `LastIndexOf`, `Insert`, and
  `Replace(pattern, "")` (as `RemoveAll`).
  It also has `Option`, which stands for a string reference that may be `null`.
- `extensions.dfy` — module `Extensions`. This is the `Extensions` class. It holds the catalogue entry
  `Package(packageName, displayName, uri)` and its classification (`IsDependency`, `IsPlugin`,
  `IsExample`), the button label (`ButtonText`) and the locator (`GetUri`).
- `manifest.dfy` — module `Manifest`. These are the text edits of `IsDependency(string)` and
  `SetDependency`. An edit is a pure function from the manifest text to a `ManifestWrite(text, changed)`.
  `changed` is the condition under which the source writes the file and requests a script recompilation.
- `panel.dfy` — module `Panel`. This is the catalogue constant and its three sections
  (Dependencies, Plugins, Samples). It also holds the row decision of `CreateElement` (checkmark or button)
  and the click decision of `OnClick` (set, toggle, or open a URL), together with the effect of a click on the manifest.

The main results:

- Setting a package the manifest does not mention splices the entry line in right after the last comma,
  or at index 0 when there is no comma. Unsetting it straight afterwards gives the original text back
  (`Manifest.SetThenUnsetRestores`). This needs a line break that ends in `'\n'`, which both `"\n"` and
  `"\r\n"` do, and an id and locator without line feeds.
- Every catalogue entry lands in exactly one section.
- The label of each row's button names what its click does, once the finding below is corrected.

Three values outside the code's reach are parameters:

- the manifest text, in place of reading `Packages/manifest.json`;
- the running version, in place of `ASM.version`;
- the platform line break, in place of `Environment.NewLine`.

How the code classifies an entry:

- A plugin is an id starting with `plugin`, and an example is an id starting with `example`. No dot is required after either prefix.
- A dependency is an entry whose locator is not empty. This test is independent of the id, so an entry can be a dependency and also a plugin or an example.
  `Extensions.DependencyExampleUsesRepository` shows where the label's and the locator's precedences then disagree.

## Model

| member | source | states |
|---|---|---|
| Strings.ContainsIff | Scripts/PackageManagerExtension.cs:228 | `Contains(s, p)` holds exactly when `p` occurs at some index of `s` |
| Strings.ContainsTransitive | Scripts/PackageManagerExtension.cs:240-242 | a text containing the entry line contains everything the line contains |
| Strings.LastIndexOf | Scripts/PackageManagerExtension.cs:241 | the result is -1 or an index holding the character, and no later index holds it |
| Strings.Insert | Scripts/PackageManagerExtension.cs:241 | the prefix before the index and the suffix after it are kept around the inserted text; cutting the inserted text out again gives the original |
| Strings.RemoveAll | Scripts/PackageManagerExtension.cs:243 | the text is unchanged exactly when the pattern does not occur; when it occurs, the result is strictly shorter |
| Strings.RemoveAllIffDeletesScannedCopies | Scripts/PackageManagerExtension.cs:243 | a text is the result of `Replace(p, "")` exactly when it is the original with the copies of `p` found by a left-to-right scan cut out, and every other character kept in order |
| Strings.ScanGapsUnique | Scripts/PackageManagerExtension.cs:243 | a text splits in only one way into gaps separated by the copies a left-to-right scan finds |
| Strings.RemoveAllSkip | Scripts/PackageManagerExtension.cs:243 | a prefix where no copy of the pattern starts survives `Replace` unchanged, and removal continues after it |
| Extensions.PluginNeverExample | Scripts/PackageManagerExtension.cs:24-28 | no entry is both a plugin and an example |
| Extensions.ButtonText | Scripts/PackageManagerExtension.cs:30-37 | dependencies and plugins get "Remove from project" exactly when installed and "Import into project" exactly when not; only examples that are neither get "View on github"; null exactly when no classification applies |
| Extensions.GetUri | Scripts/PackageManagerExtension.cs:39-48 | example before plugin before dependency: the repository URL, the repository URL tagged `#asm-` and the version, or the entry's own locator; null exactly when no classification applies |
| Extensions.PluginUriExtendsRepository | Scripts/PackageManagerExtension.cs:42-44 | a plugin's locator is the example-style repository URL followed by `#asm-` and the version |
| Extensions.DependencyExampleUsesRepository | Scripts/PackageManagerExtension.cs:30-48 | an entry that is both dependency and example is labelled for import, yet its locator is the repository URL |
| Manifest.InsertionPoint | Scripts/PackageManagerExtension.cs:241 | the splice index is just after a comma, or 0, and no comma follows it |
| Manifest.EntryLineMentionsName | Scripts/PackageManagerExtension.cs:238 | the entry line is never empty and contains the package id |
| Manifest.SetDependency | Scripts/PackageManagerExtension.cs:231-252 | a change is reported exactly when the text differs. Set on a manifest that mentions the id is a no-op. Set on one that does not mention it is a change, adds exactly the line's length, and leaves the id mentioned. Unset changes nothing when the exact line is absent. When the line is present, unset deletes the copies of the line a left-to-right scan finds, keeps everything else in order, and so shortens the text. Unset never changes a manifest that does not mention the id |
| Manifest.SetSplicesAfterLastComma | Scripts/PackageManagerExtension.cs:238-241 | set on a manifest lacking the id yields prefix + entry line + suffix, split after the last comma (or at 0 with no comma) |
| Manifest.SetLeavesEntryLine | Scripts/PackageManagerExtension.cs:240-241 | a set on a manifest that does not mention the id leaves the exact entry line in the text, so the next unset finds it |
| Manifest.SetIdempotent | Scripts/PackageManagerExtension.cs:240 | setting again after a set changes nothing and writes nothing |
| Manifest.PlatformLineBreaks | Scripts/PackageManagerExtension.cs:238 | both `"\n"` and `"\r\n"` are line breaks of the shape the round trip needs |
| Manifest.EntryLineShape | Scripts/PackageManagerExtension.cs:238 | the entry line's only line feed closes the line break, no comma precedes it, and the line ends in a comma |
| Manifest.NoCopyBeforeSplice | Scripts/PackageManagerExtension.cs:238-243 | after the splice, no copy of the entry line starts before the splice index |
| Manifest.RemoveSplicedLine | Scripts/PackageManagerExtension.cs:241-243 | removing the line from the spliced text restores the text when the spliced copy is the only one |
| Manifest.SetThenUnsetRestores | Scripts/PackageManagerExtension.cs:238-249 | unset right after set restores the manifest exactly, and both edits report a change (write and recompile) |
| Panel.SectionMembers | Scripts/PackageManagerExtension.cs:143-146 | a section holds exactly the listed entries its classification accepts |
| Panel.SectionAppend | Scripts/PackageManagerExtension.cs:143-146 | selecting from a concatenation concatenates the selections |
| Panel.SectionUniform | Scripts/PackageManagerExtension.cs:143-146 | a list all of whose entries pass is its own section; one whose entries all fail has an empty one |
| Panel.PluginKinds | Scripts/PackageManagerExtension.cs:58-60 | the two plugin entries are plugins only |
| Panel.ExampleKinds | Scripts/PackageManagerExtension.cs:62-65 | the three example entries are examples only |
| Panel.DependencyKinds | Scripts/PackageManagerExtension.cs:67-69 | the two dependency entries are dependencies only |
| Panel.CatalogueEntriesHaveOneKind | Scripts/PackageManagerExtension.cs:55-71 | every catalogue entry satisfies exactly one classification |
| Panel.SectionsStep | Scripts/PackageManagerExtension.cs:143-146 | an entry of one kind is added to exactly one section |
| Panel.SectionsPartition | Scripts/PackageManagerExtension.cs:143-146 | when every entry has one kind, the three sections together are a permutation of the list |
| Panel.CatalogueSectionsExact | Scripts/PackageManagerExtension.cs:143-146 | the catalogue's sections are exactly its two dependencies, two plugins and three examples, in catalogue order |
| Panel.CatalogueSectionsPartition | Scripts/PackageManagerExtension.cs:143-146 | each catalogue entry appears in exactly one section, once |
| Panel.CreateElement | Scripts/PackageManagerExtension.cs:193-204 | checkmark exactly for a dependency the manifest mentions. Otherwise a button: "Import into project" exactly for a dependency or plugin, "View on github" exactly for an entry that is only an example, null exactly for an unclassified entry, and never "Remove from project" |
| Panel.CreateElementCorrected | Scripts/PackageManagerExtension.cs:193-204 | checkmark exactly as above; the label is "Remove from project" exactly for a plugin, not also a dependency, that the manifest mentions |
| Panel.SectionRows | Scripts/PackageManagerExtension.cs:173-174 | one row per section entry, built as written: a checkmark exactly where the entry is an installed dependency. Every other button is labelled as in `Panel.CreateElement`: import for dependencies and plugins, github for entries that are only examples, and no button offering removal |
| Panel.PluginSectionRows | Scripts/PackageManagerExtension.cs:145 | as written, the plugin section shows two "Import into project" buttons whatever the manifest holds |
| Panel.OnClick | Scripts/PackageManagerExtension.cs:208-220 | a dependency always requests set. A plugin requests set exactly when the manifest lacks its id and unset otherwise. An example only opens its repository. An unclassified entry does nothing. A request carries the entry's id and its `GetUri` locator |
| Panel.Perform | Scripts/PackageManagerExtension.cs:211-218 | a set or unset request is exactly the `SetDependency` edit with the request's id, locator and flag, so it has that member's full contract. After a set request the id is mentioned. Opening a URL or no action leaves the manifest unchanged and writes nothing |
| Panel.DependencyClickShowsCheckmark | Scripts/PackageManagerExtension.cs:193-214 | after clicking a dependency, its row shows the checkmark |
| Panel.PluginClickTwiceRestores | Scripts/PackageManagerExtension.cs:215-216 | clicking an uninstalled plugin installs it, and the corrected row then offers removal; clicking again restores the manifest exactly |
| Panel.InstalledPluginLabels | Scripts/PackageManagerExtension.cs:201-216 | after a click installs a plugin, the corrected row offers removal and the row as written still offers import, while the next click requests unset with the same locator |
| Panel.ExampleClickOnlyOpens | Scripts/PackageManagerExtension.cs:217-218 | clicking an example yields its repository URL and leaves the manifest unchanged |
| Panel.InstalledPluginLabelMismatch | Scripts/PackageManagerExtension.cs:201-202 | as written, on the manifest a set click leaves behind, the locking plugin's button reads "Import into project", while its click requests unset and writes a changed manifest |
| Panel.CorrectedLabelMatchesClick | Scripts/PackageManagerExtension.cs:201-216 | with the corrected row, the label is "Remove" exactly for unset, "Import" exactly for set, the github link exactly for opening a URL, and null exactly for no action |

## Findings

| source | as written | input that shows it | evidently intended | confidence | as-written member | corrected member |
|---|---|---|---|---|---|---|
| Scripts/PackageManagerExtension.cs:201-202 | the button label is `package.ButtonText()`, so `isInstalled` keeps its default `false` | `plugin.asm.locking` with a manifest holding its entry line for the running version, as a set click leaves it: the label reads "Import into project", but a click requests unset, deletes the line and writes the file | the label is `ButtonText(IsDependency(packageName))`, so that the "Remove from project" branch of `ButtonText` can be reached | medium, not executed | Panel.InstalledPluginLabelMismatch | Panel.CorrectedLabelMatchesClick |

`Panel.CreateElement` and `Panel.SectionRows` keep the code as written.
`Panel.CreateElementCorrected` is the corrected row.

## Left out

- `SetVersion` and `GetVersion` (Scripts/PackageManagerExtension.cs:85-110) are left out. They depend on .NET regular-expression matching, `System.Version.Parse` and `Resources.Load`, whose behaviour is not part of this model.
- Reading and writing `Packages/manifest.json` and `CompilationPipeline.RequestScriptCompilation` are left out. Both are side effects. An edit returns the new text and the `changed` flag that triggers them.
- `ASM.version`, `ASM.assemblyNames` and `Environment.NewLine` come from outside the code. The version and the line break are parameters. The assembly names are used only by `OnPackageSelectionChange`.
- The visual tree is left out. This covers the visual parts of `Refresh` and `CreateSection` (headers, text elements and styles), `CreateLink`, the tooltips, the documentation and changelog links, and `Application.OpenURL`. The section filters of `Refresh` and the row loop of `CreateSection` are modelled. The model returns the decision: a row kind, a label, and the URL to open.
- `OnLoad`, `OnPackageAddedOrUpdated`, `OnPackageRemoved` and `OnPackageSelectionChange` are left out. They register the panel, rebuild it, or toggle its visibility in the host window.
- `StartsWith(string)` and `LastIndexOf(string)` compare culture-sensitively in .NET. The model compares ordinally. For the ASCII prefixes and the comma used here, that is the intended reading.
- `null` package fields are not modelled. Every catalogue field is a non-null literal. `null` appears only as the result of `ButtonText` and `GetUri`, where it is `None`.
- Manifest.SetThenUnsetRestores: the round trip is proved under three assumptions. The manifest must not mention the id, the line break must end in `'\n'` with no line feed or comma before it, and the id and locator must have no line feeds. Without them, an unset can also delete other copies of the line, or a set can be skipped.
- An unset issued with a different running version than the matching set is not modelled as its own lemma. The plugin's entry line contains the version, so such an unset finds no exact line and, by `Manifest.SetDependency`, changes nothing.
- Strings.RemoveAll: its own contract gives only the length facts and the no-occurrence case. The full description of what it deletes is the separate lemma `Strings.RemoveAllIffDeletesScannedCopies`. Neither promises "no copy remains": deleting one copy can join its neighbours into a new copy, and `Replace` scans only once.

=== FILE: extensions.dfy ===
/**
 The `Extensions` helpers of the package manager panel: how a catalogue entry
 `(packageName, displayName, uri)` is classified, which label its button
 carries and which locator installing or opening it uses.
 */
module Extensions {
  import opened Strings

  /** One catalogue entry: the package id, the label shown, and a source locator (empty for plugins and examples). */
  datatype Package = Package(packageName: string, displayName: string, uri: string)

  const RemoveLabel: string := "Remove from project"
  const ImportLabel: string := "Import into project"
  const GithubLabel: string := "View on github"

  /** Every example and plugin repository lives under this account. */
  const GithubPrefix: string := "https://github.com/Lazy-Solutions/"

  /** A dependency is an entry whose locator is not empty. */
  predicate IsDependency(package: Package) {
    |package.uri| > 0
  }

  /** A plugin's id starts with "plugin". */
  predicate IsPlugin(package: Package) {
    "plugin" <= package.packageName
  }

  /** An example's id starts with "example". */
  predicate IsExample(package: Package) {
    "example" <= package.packageName
  }

  /** The two name prefixes disagree at their first character, so no entry is both a plugin and an example. */
  lemma PluginNeverExample(package: Package)
    ensures !(IsPlugin(package) && IsExample(package))
  {
    PrefixesFixFirstCharacter(package);
  }

  /** A plugin's id begins with 'p', an example's with 'e'. */
  lemma PrefixesFixFirstCharacter(package: Package)
    ensures IsPlugin(package) ==> package.packageName[0] == 'p'
    ensures IsExample(package) ==> package.packageName[0] == 'e'
  {
    if IsPlugin(package) {
      assert package.packageName[0] == "plugin"[0];
    }
    if IsExample(package) {
      assert package.packageName[0] == "example"[0];
    }
  }

  /**
   The label of an entry's button (`null` is `None`): installing or removing
   for dependencies and plugins, a link for examples; the dependency/plugin
   test is made first.
   */
  function ButtonText(package: Package, isInstalled: bool): (r: Option<string>)
    ensures r.None? <==> !IsDependency(package) && !IsPlugin(package) && !IsExample(package)
    ensures r == Some(RemoveLabel) <==> (IsDependency(package) || IsPlugin(package)) && isInstalled
    ensures r == Some(ImportLabel) <==> (IsDependency(package) || IsPlugin(package)) && !isInstalled
    ensures r == Some(GithubLabel) <==> IsExample(package) && !IsDependency(package) && !IsPlugin(package)
  {
    if IsDependency(package) || IsPlugin(package) then
      Some(if isInstalled then RemoveLabel else ImportLabel)
    else if IsExample(package) then
      Some(GithubLabel)
    else
      None
  }

  /** The repository of an example or plugin package, as a git URL. */
  function RepositoryUrl(packageName: string): string {
    GithubPrefix + packageName + ".git"
  }

  /**
   The locator used to install or open an entry (`null` is `None`): examples
   first, then plugins (pinned to the tag of the running version `version`),
   then dependencies, whose own locator is used.
   */
  function GetUri(package: Package, version: string): (r: Option<string>)
    ensures r.None? <==> !IsDependency(package) && !IsPlugin(package) && !IsExample(package)
    ensures IsExample(package) ==> r == Some(RepositoryUrl(package.packageName))
    ensures !IsExample(package) && IsPlugin(package) ==>
              r == Some(RepositoryUrl(package.packageName) + "#asm-" + version)
    ensures !IsExample(package) && !IsPlugin(package) && IsDependency(package) ==> r == Some(package.uri)
  {
    if IsExample(package) then
      Some(RepositoryUrl(package.packageName))
    else if IsPlugin(package) then
      Some(RepositoryUrl(package.packageName) + "#asm-" + version)
    else if IsDependency(package) then
      Some(package.uri)
    else
      None
  }

  /**
   A plugin's locator is its example-style repository URL followed by the
   version tag, and contains the plugin's own id.
   */
  lemma PluginUriExtendsRepository(package: Package, version: string)
    requires IsPlugin(package)
    ensures GetUri(package, version).Some?
    ensures RepositoryUrl(package.packageName) <= GetUri(package, version).value
    ensures GetUri(package, version).value[|RepositoryUrl(package.packageName)|..] == "#asm-" + version
  {
    PluginNeverExample(package);
  }

  /**
   The one place the two precedences disagree: an entry that is both a
   dependency and an example is labelled for installing, yet its locator is
   the example repository rather than its own.
   */
  lemma DependencyExampleUsesRepository(package: Package, version: string)
    requires IsDependency(package) && IsExample(package)
    ensures ButtonText(package, false) == Some(ImportLabel)
    ensures GetUri(package, version) == Some(RepositoryUrl(package.packageName))
  {
  }
}

=== FILE: manifest.dfy ===
/**
 Editing of the project's package manifest (`Packages/manifest.json`) as
 plain text: presence is substring containment of the package id, "set"
 splices a templated entry line in after the last comma, "unset" deletes the
 copies of that exact line a left-to-right scan finds. Reading and writing
 the file and the recompilation request are left to the caller: an edit
 returns the new text and whether it differs, which is when the file is
 written and a recompilation requested.
 */
module Manifest {
  import opened Strings

  /** The text after an edit, and whether it differs (the file is then written and scripts recompiled). */
  datatype ManifestWrite = ManifestWrite(text: string, changed: bool)

  /** The entry line for a package: a line break, two tabs, then `"name": "uri",`. */
  function EntryLine(newline: string, packageName: string, uri: string): string {
    newline + "\t\t\"" + packageName + "\": \"" + uri + "\","
  }

  /** Whether the manifest already mentions the package id anywhere. */
  predicate IsDependency(manifest: string, packageName: string) {
    Contains(manifest, packageName)
  }

  /** The index just after the last comma, or 0 when the manifest has none. */
  function InsertionPoint(manifest: string): (k: nat)
    ensures k <= |manifest|
    ensures k > 0 ==> manifest[k - 1] == ','
    ensures ',' !in manifest[k..]
  {
    LastIndexOfSuffix(manifest, ',');
    LastIndexOf(manifest, ',') + 1
  }

  /** The entry line is never empty and mentions the package id. */
  lemma EntryLineMentionsName(newline: string, packageName: string, uri: string)
    ensures |EntryLine(newline, packageName, uri)| > 0
    ensures Contains(EntryLine(newline, packageName, uri), packageName)
  {
    var line := EntryLine(newline, packageName, uri);
    var at := |newline| + 3;
    assert line[at..at + |packageName|] == packageName;
    ContainsAt(line, packageName, at);
  }

  /**
   `SetDependency`: with `isSet`, insert the entry line after the last comma
   unless the id is already mentioned; without it, delete the copies of the
   entry line a left-to-right scan finds, if there is one. Nothing else
   touches the text.
   */
  function SetDependency(manifest: string, newline: string, packageName: string, uri: string, isSet: bool): (w: ManifestWrite)
    ensures w.changed <==> w.text != manifest
    ensures isSet && IsDependency(manifest, packageName) ==> !w.changed
    ensures isSet && !IsDependency(manifest, packageName) ==>
              w.changed && IsDependency(w.text, packageName)
              && |w.text| == |manifest| + |EntryLine(newline, packageName, uri)|
    ensures !isSet && !Contains(manifest, EntryLine(newline, packageName, uri)) ==> !w.changed
    ensures !isSet && Contains(manifest, EntryLine(newline, packageName, uri)) ==>
              && w.changed && |w.text| < |manifest|
              && DeletesScannedCopies(manifest, EntryLine(newline, packageName, uri), w.text)
    ensures !isSet ==> !IsDependency(manifest, packageName) ==> !w.changed
  {
    var line := EntryLine(newline, packageName, uri);
    EntryLineMentionsName(newline, packageName, uri);
    ContainsTransitive(manifest, line, packageName);
    var text :=
      if isSet && !Contains(manifest, packageName) then
        var k := InsertionPoint(manifest);
        var r := Insert(manifest, k, line);
        assert r[k..k + |line|] == line;
        ContainsSlice(r, k, k + |line|);
        ContainsTransitive(r, line, packageName);
        r
      else if !isSet && Contains(manifest, line) then
        RemoveAllIffDeletesScannedCopies(manifest, line, RemoveAll(manifest, line));
        RemoveAll(manifest, line)
      else
        manifest;
    ManifestWrite(text, text != manifest)
  }

  /**
   Setting a package the manifest does not mention splices the entry line in
   right after the last comma (or at the start when there is none), keeping
   everything before and after it.
   */
  lemma SetSplicesAfterLastComma(manifest: string, newline: string, packageName: string, uri: string)
    requires !IsDependency(manifest, packageName)
    ensures var w := SetDependency(manifest, newline, packageName, uri, true);
            var line := EntryLine(newline, packageName, uri);
            exists k :: 0 <= k <= |manifest|
                        && (k > 0 ==> manifest[k - 1] == ',')
                        && ',' !in manifest[k..]
                        && w.text == manifest[..k] + line + manifest[k..]
  {
    var k := InsertionPoint(manifest);
    assert 0 <= k <= |manifest| && (k > 0 ==> manifest[k - 1] == ',') && ',' !in manifest[k..];
  }

  /** A set on a manifest that does not mention the id leaves its exact entry line in the text. */
  lemma SetLeavesEntryLine(manifest: string, newline: string, packageName: string, uri: string)
    requires !IsDependency(manifest, packageName)
    ensures Contains(SetDependency(manifest, newline, packageName, uri, true).text, EntryLine(newline, packageName, uri))
  {
    var line := EntryLine(newline, packageName, uri);
    var k := InsertionPoint(manifest);
    var r := Insert(manifest, k, line);
    assert SetDependency(manifest, newline, packageName, uri, true).text == r;
    assert r[k..k + |line|] == line;
    ContainsSlice(r, k, k + |line|);
  }

  /** Setting twice is setting once: the first set leaves the id mentioned. */
  lemma SetIdempotent(manifest: string, newline: string, packageName: string, uri: string)
    ensures var once := SetDependency(manifest, newline, packageName, uri, true);
            SetDependency(once.text, newline, packageName, uri, true) == ManifestWrite(once.text, false)
  {
  }

  /**
   A platform line break of the shape the round trip needs: it ends in
   `'\n'`, and nothing before that is a line feed or a comma ("\n" and
   "\r\n" both qualify).
   */
  predicate LineBreak(newline: string) {
    |newline| > 0 && newline[|newline| - 1] == '\n'
    && '\n' !in newline[..|newline| - 1] && ',' !in newline[..|newline| - 1]
  }

  /** Both line breaks .NET uses have that shape. */
  lemma PlatformLineBreaks()
    ensures LineBreak("\n") && LineBreak("\r\n")
  {
    assert "\r\n"[..1] == "\r";
  }

  /**
   Where the entry line's only line feed sits and where its commas cannot
   be: the line feed closes `newline`, and no comma occurs before it.
   */
  lemma EntryLineShape(newline: string, packageName: string, uri: string)
    requires LineBreak(newline) && '\n' !in packageName && '\n' !in uri
    ensures var line := EntryLine(newline, packageName, uri);
            && line[|newline| - 1] == '\n'
            && (forall j :: |newline| <= j < |line| ==> line[j] != '\n')
            && (forall j :: 0 <= j < |newline| - 1 ==> line[j] != ',')
            && line[|line| - 1] == ','
  {
    var line := EntryLine(newline, packageName, uri);
    var rest := "\t\t\"" + packageName + "\": \"" + uri + "\",";
    assert line == newline + rest;
    assert '\n' !in rest;
    forall j | |newline| <= j < |line|
      ensures line[j] != '\n'
    {
      assert line[j] == rest[j - |newline|];
    }
    forall j | 0 <= j < |newline| - 1
      ensures line[j] != ','
    {
      assert line[j] == newline[..|newline| - 1][j];
    }
  }

  /** A copy lying wholly before the splice point would already be in the old text. */
  lemma NoCopyInsideOldText(manifest: string, k: int, line: string, i: int)
    requires 0 <= i && i + |line| <= k <= |manifest|
    requires !Contains(manifest, line)
    ensures !OccursAt(Insert(manifest, k, line), line, i)
  {
    var g := Insert(manifest, k, line);
    assert g[i..i + |line|] == manifest[i..i + |line|] by {
      assert g[..k] == manifest[..k];
      assert g[i..i + |line|] == g[..k][i..i + |line|];
    }
    NotContainsNowhere(manifest, line, i);
  }

  /**
   A copy starting before the splice point that covers the spliced line's
   line feed (at offset `m`) would need a second line feed in the line.
   */
  lemma NoCopyOverLineFeed(manifest: string, k: int, line: string, m: int, i: int)
    requires 0 <= i < k <= |manifest| && 0 <= m < |line|
    requires line[m] == '\n' && forall j :: m < j < |line| ==> line[j] != '\n'
    requires k + m < i + |line|
    ensures !OccursAt(Insert(manifest, k, line), line, i)
  {
    var g := Insert(manifest, k, line);
    if i + |line| <= |g| {
      assert g[k + m] == '\n' by {
        assert g[k..k + |line|][m] == g[k + m];
      }
      assert g[i..i + |line|][k + m - i] == g[k + m];
    }
  }

  /**
   A copy starting before the splice point that ends before the spliced
   line's line feed (at offset `m`) ends in a comma inside the line break.
   */
  lemma NoCopyEndingInLineBreak(manifest: string, k: int, line: string, m: int, i: int)
    requires 0 <= i < k <= |manifest| && 0 <= m < |line|
    requires line[|line| - 1] == ',' && forall j :: 0 <= j < m ==> line[j] != ','
    requires k < i + |line| <= k + m
    ensures !OccursAt(Insert(manifest, k, line), line, i)
  {
    var g := Insert(manifest, k, line);
    var e := i + |line| - 1;
    assert g[e] == line[e - k] by {
      assert g[k..k + |line|][e - k] == g[e];
    }
    assert g[i..i + |line|][|line| - 1] == g[e];
  }

  /**
   After splicing the entry line in at `k`, no copy of it starts before `k`:
   one wholly inside the old text would mention the id, and one reaching
   into the spliced line would have to line up the two line feeds or put a
   comma inside the line break.
   */
  lemma NoCopyBeforeSplice(manifest: string, k: int, newline: string, packageName: string, uri: string, i: int)
    requires 0 <= i < k <= |manifest|
    requires !IsDependency(manifest, packageName)
    requires LineBreak(newline) && '\n' !in packageName && '\n' !in uri
    ensures !OccursAt(Insert(manifest, k, EntryLine(newline, packageName, uri)), EntryLine(newline, packageName, uri), i)
  {
    var line := EntryLine(newline, packageName, uri);
    var m := |newline| - 1;
    EntryLineShape(newline, packageName, uri);
    EntryLineMentionsName(newline, packageName, uri);
    ContainsTransitive(manifest, line, packageName);
    if i + |line| <= k {
      NoCopyInsideOldText(manifest, k, line, i);
    } else if k + m < i + |line| {
      NoCopyOverLineFeed(manifest, k, line, m, i);
    } else {
      NoCopyEndingInLineBreak(manifest, k, line, m, i);
    }
  }

  /**
   Deleting the entry line from the spliced text gives the old text back
   when the only copy is the spliced one.
   */
  lemma RemoveSplicedLine(manifest: string, k: int, line: string)
    requires 0 <= k <= |manifest| && |line| > 0
    requires NoOccurrenceBefore(Insert(manifest, k, line), line, k)
    requires !Contains(manifest[k..], line)
    ensures RemoveAll(Insert(manifest, k, line), line) == manifest
  {
    var a, c := manifest[..k], manifest[k..];
    InsertSplits(manifest, k, line);
    RemoveAllSkip(a, line + c, line);
    RemoveAllLeading(line, c);
    assert RemoveAll(c, line) == c;
    assert a + c == manifest;
  }

  /**
   The toggle round trip: on a manifest that does not mention the package,
   with a line break of the usual shape and an id and locator without line
   feeds, unsetting right after setting restores the original text, and
   both steps report a change.
   */
  lemma {:induction false} SetThenUnsetRestores(manifest: string, newline: string, packageName: string, uri: string)
    requires !IsDependency(manifest, packageName)
    requires LineBreak(newline) && '\n' !in packageName && '\n' !in uri
    ensures var added := SetDependency(manifest, newline, packageName, uri, true);
            added.changed && SetDependency(added.text, newline, packageName, uri, false) == ManifestWrite(manifest, true)
  {
    var line := EntryLine(newline, packageName, uri);
    EntryLineMentionsName(newline, packageName, uri);
    var k := InsertionPoint(manifest);
    var g := Insert(manifest, k, line);
    assert SetDependency(manifest, newline, packageName, uri, true).text == g;
    forall i | 0 <= i < k
      ensures !OccursAt(g, line, i)
    {
      NoCopyBeforeSplice(manifest, k, newline, packageName, uri, i);
    }
    ContainsTransitive(manifest, line, packageName);
    assert !Contains(manifest, line);
    ContainsSlice(manifest, k, |manifest|);
    assert manifest[k..|manifest|] == manifest[k..];
    ContainsTransitive(manifest, manifest[k..], line);
    RemoveSplicedLine(manifest, k, line);
    assert g[k..k + |line|] == line;
    ContainsSlice(g, k, k + |line|);
  }
}

=== FILE: panel.dfy ===
/**
 The panel's decisions: the fixed catalogue and its three sections, what a
 row shows (a checkmark or a button), and what clicking the button asks for
 (a manifest edit or a URL to open). Building the visual tree, opening the
 browser and the host's refresh callbacks are outside the model; the
 manifest text, the running version and the platform line break are
 parameters.
 */
module Panel {
  import opened Strings
  import opened Extensions
  import Manifest

  const Addressables := Package("plugin.asm.addressables", "Addressables", "")
  const Locking := Package("plugin.asm.locking", "Lock collections and scenes", "")
  const LevelSelect := Package("example.asm.level-select", "Level select", "")
  const Preloading := Package("example.asm.preloading", "Preloading", "")
  const Streaming := Package("example.asm.streaming", "Streaming", "")
  const EditorCoroutines := Package("com.unity.editorcoroutines", "Editor Coroutines", "1.0.0")
  const CoroutineUtility := Package("utility.lazy.coroutines", "Lazy.CoroutineUtility",
                                    "https://github.com/Lazy-Solutions/Unity.CoroutineUtility.git#asm")

  const PluginEntries: seq<Package> := [Addressables, Locking]
  const ExampleEntries: seq<Package> := [LevelSelect, Preloading, Streaming]
  const DependencyEntries: seq<Package> := [EditorCoroutines, CoroutineUtility]

  /** The catalogue, in source order: two plugins, three examples, two dependencies. */
  const Packages: seq<Package> := PluginEntries + ExampleEntries + DependencyEntries

  /** The three sections of the panel, in the order they are drawn. */
  datatype Kind = Dependencies | Plugins | Samples

  /** The classification each section filters by. */
  predicate InSection(kind: Kind, package: Package) {
    match kind
    case Dependencies => IsDependency(package)
    case Plugins => IsPlugin(package)
    case Samples => IsExample(package)
  }

  /** The entries of `packages` that section `kind` lists, in catalogue order. */
  function Section(packages: seq<Package>, kind: Kind): (r: seq<Package>)
    ensures |r| <= |packages|
  {
    if |packages| == 0 then []
    else (if InSection(kind, packages[0]) then [packages[0]] else []) + Section(packages[1..], kind)
  }

  /** A section holds exactly the entries of the list that its classification accepts. */
  lemma {:induction false} SectionMembers(packages: seq<Package>, kind: Kind, x: Package)
    ensures x in Section(packages, kind) <==> x in packages && InSection(kind, x)
    decreases |packages|
  {
    if |packages| > 0 {
      SectionMembers(packages[1..], kind, x);
      assert packages == [packages[0]] + packages[1..];
    }
  }

  /** An entry that satisfies exactly one of the three classifications. */
  predicate ExactlyOneKind(package: Package) {
    || (IsDependency(package) && !IsPlugin(package) && !IsExample(package))
    || (!IsDependency(package) && IsPlugin(package) && !IsExample(package))
    || (!IsDependency(package) && !IsPlugin(package) && IsExample(package))
  }

  /** The plugins' ids start with "plugin". */
  lemma PluginKinds()
    ensures IsPlugin(Addressables) && !IsDependency(Addressables) && !IsExample(Addressables)
    ensures IsPlugin(Locking) && !IsDependency(Locking) && !IsExample(Locking)
  {
    assert Addressables.packageName[..6] == "plugin";
    assert Locking.packageName[..6] == "plugin";
    PluginNeverExample(Addressables);
    PluginNeverExample(Locking);
  }

  /** The examples' ids start with "example". */
  lemma ExampleKinds()
    ensures IsExample(LevelSelect) && !IsDependency(LevelSelect) && !IsPlugin(LevelSelect)
    ensures IsExample(Preloading) && !IsDependency(Preloading) && !IsPlugin(Preloading)
    ensures IsExample(Streaming) && !IsDependency(Streaming) && !IsPlugin(Streaming)
  {
    assert LevelSelect.packageName[..7] == "example";
    assert Preloading.packageName[..7] == "example";
    assert Streaming.packageName[..7] == "example";
    PluginNeverExample(LevelSelect);
    PluginNeverExample(Preloading);
    PluginNeverExample(Streaming);
  }

  /** The dependencies carry a locator, and their ids start with neither prefix. */
  lemma DependencyKinds()
    ensures IsDependency(EditorCoroutines) && !IsPlugin(EditorCoroutines) && !IsExample(EditorCoroutines)
    ensures IsDependency(CoroutineUtility) && !IsPlugin(CoroutineUtility) && !IsExample(CoroutineUtility)
  {
    PrefixesFixFirstCharacter(EditorCoroutines);
    PrefixesFixFirstCharacter(CoroutineUtility);
  }

  /** Every catalogue entry has exactly one kind. */
  lemma CatalogueEntriesHaveOneKind()
    ensures forall i :: 0 <= i < |Packages| ==> ExactlyOneKind(Packages[i])
  {
    PluginKinds();
    ExampleKinds();
    DependencyKinds();
  }

  /** Selecting from a split list is splitting the selections. */
  lemma {:induction false} SectionAppend(a: seq<Package>, b: seq<Package>, kind: Kind)
    ensures Section(a + b, kind) == Section(a, kind) + Section(b, kind)
    decreases |a|
  {
    if |a| > 0 {
      assert (a + b)[1..] == a[1..] + b;
      SectionAppend(a[1..], b, kind);
    } else {
      assert a + b == b;
    }
  }

  /** A list whose entries all belong is its own section; one whose entries all do not has an empty one. */
  lemma {:induction false} SectionUniform(packages: seq<Package>, kind: Kind)
    ensures (forall i :: 0 <= i < |packages| ==> InSection(kind, packages[i])) ==> Section(packages, kind) == packages
    ensures (forall i :: 0 <= i < |packages| ==> !InSection(kind, packages[i])) ==> Section(packages, kind) == []
    decreases |packages|
  {
    if |packages| > 0 {
      var rest := packages[1..];
      assert forall i :: 0 <= i < |rest| ==> rest[i] == packages[i + 1];
      SectionUniform(rest, kind);
      assert packages == [packages[0]] + rest;
    }
  }

  /** The three sections' contents. */
  datatype Sections = Sections(dependencies: seq<Package>, plugins: seq<Package>, samples: seq<Package>)

  function CatalogueSections(packages: seq<Package>): Sections {
    Sections(Section(packages, Dependencies), Section(packages, Plugins), Section(packages, Samples))
  }

  /** The head of the list goes into the one section its kind names, and nowhere else. */
  lemma SectionsStep(packages: seq<Package>)
    requires |packages| > 0 && ExactlyOneKind(packages[0])
    ensures var s, r, x := CatalogueSections(packages), CatalogueSections(packages[1..]), packages[0];
            multiset(s.dependencies) + multiset(s.plugins) + multiset(s.samples)
            == multiset{x} + (multiset(r.dependencies) + multiset(r.plugins) + multiset(r.samples))
  {
    var s, r, x := CatalogueSections(packages), CatalogueSections(packages[1..]), packages[0];
    if IsDependency(x) {
      assert s == Sections([x] + r.dependencies, r.plugins, r.samples);
      ConsMultiset(x, r.dependencies);
    } else if IsPlugin(x) {
      assert s == Sections(r.dependencies, [x] + r.plugins, r.samples);
      ConsMultiset(x, r.plugins);
    } else {
      assert s == Sections(r.dependencies, r.plugins, [x] + r.samples);
      ConsMultiset(x, r.samples);
    }
  }

  /** Putting an entry in front adds one copy of it. */
  lemma ConsMultiset(x: Package, s: seq<Package>)
    ensures multiset([x] + s) == multiset{x} + multiset(s)
  {
  }

  /**
   When every entry has exactly one kind, the three sections together hold
   each entry exactly as often as the list does.
   */
  lemma {:induction false} SectionsPartition(packages: seq<Package>)
    requires forall i :: 0 <= i < |packages| ==> ExactlyOneKind(packages[i])
    ensures var s := CatalogueSections(packages);
            multiset(s.dependencies) + multiset(s.plugins) + multiset(s.samples) == multiset(packages)
    decreases |packages|
  {
    if |packages| > 0 {
      var x, rest := packages[0], packages[1..];
      forall i | 0 <= i < |rest|
        ensures ExactlyOneKind(rest[i])
      {
        assert rest[i] == packages[i + 1];
      }
      SectionsPartition(rest);
      SectionsStep(packages);
      assert packages == [x] + rest;
    }
  }

  /** The two plugins fill the plugin section alone. */
  lemma PluginSections()
    ensures Section(PluginEntries, Dependencies) == []
    ensures Section(PluginEntries, Plugins) == PluginEntries
    ensures Section(PluginEntries, Samples) == []
  {
    PluginKinds();
    SectionUniform(PluginEntries, Dependencies);
    SectionUniform(PluginEntries, Plugins);
    SectionUniform(PluginEntries, Samples);
  }

  /** The three examples fill the sample section alone. */
  lemma SampleSections()
    ensures Section(ExampleEntries, Dependencies) == []
    ensures Section(ExampleEntries, Plugins) == []
    ensures Section(ExampleEntries, Samples) == ExampleEntries
  {
    ExampleKinds();
    SectionUniform(ExampleEntries, Dependencies);
    SectionUniform(ExampleEntries, Plugins);
    SectionUniform(ExampleEntries, Samples);
  }

  /** The two dependencies fill the dependency section alone. */
  lemma DependencySections()
    ensures Section(DependencyEntries, Dependencies) == DependencyEntries
    ensures Section(DependencyEntries, Plugins) == []
    ensures Section(DependencyEntries, Samples) == []
  {
    DependencyKinds();
    SectionUniform(DependencyEntries, Dependencies);
    SectionUniform(DependencyEntries, Plugins);
    SectionUniform(DependencyEntries, Samples);
  }

  /**
   The catalogue's sections, in catalogue order: the dependency section
   lists the two dependencies, the plugin section the two plugins, the
   sample section the three examples.
   */
  lemma CatalogueSectionsExact()
    ensures CatalogueSections(Packages) == Sections(DependencyEntries, PluginEntries, ExampleEntries)
  {
    CatalogueSection(Dependencies);
    CatalogueSection(Plugins);
    CatalogueSection(Samples);
  }

  /** The entries of one kind, as the catalogue groups them. */
  function Entries(kind: Kind): seq<Package> {
    match kind
    case Dependencies => DependencyEntries
    case Plugins => PluginEntries
    case Samples => ExampleEntries
  }

  /** One section of the catalogue is the group of that kind. */
  lemma CatalogueSection(kind: Kind)
    ensures Section(Packages, kind) == Entries(kind)
  {
    PluginSections();
    SampleSections();
    DependencySections();
    OneGroupSelected(PluginEntries, ExampleEntries, DependencyEntries, kind, Entries(kind));
  }

  /**
   Selecting from three groups where exactly one group is selected whole
   and the other two not at all gives that group.
   */
  lemma OneGroupSelected(a: seq<Package>, b: seq<Package>, c: seq<Package>, kind: Kind, e: seq<Package>)
    requires var sa, sb, sc := Section(a, kind), Section(b, kind), Section(c, kind);
             || (sa == e && sb == [] && sc == [])
             || (sa == [] && sb == e && sc == [])
             || (sa == [] && sb == [] && sc == e)
    ensures Section(a + b + c, kind) == e
  {
    SectionAppend(a + b, c, kind);
    SectionAppend(a, b, kind);
    assert e + [] == e && [] + e == e;
  }

  /** Every catalogue entry appears in exactly one of the three sections, once. */
  lemma CatalogueSectionsPartition()
    ensures var s := CatalogueSections(Packages);
            multiset(s.dependencies) + multiset(s.plugins) + multiset(s.samples) == multiset(Packages)
  {
    CatalogueEntriesHaveOneKind();
    SectionsPartition(Packages);
  }

  /** What a row shows next to its label. */
  datatype Row = Checkmark | ActionButton(caption: Option<string>)

  /**
   `CreateElement` as written: a dependency the manifest mentions gets a
   checkmark, anything else a button labelled as if not installed.
   */
  function CreateElement(package: Package, manifest: string): (row: Row)
    ensures row.Checkmark? <==> IsDependency(package) && Manifest.IsDependency(manifest, package.packageName)
    ensures row.ActionButton? ==> (row.caption.Some? <==> IsDependency(package) || IsPlugin(package) || IsExample(package))
    ensures row.ActionButton? ==> (row.caption == Some(ImportLabel) <==> IsDependency(package) || IsPlugin(package))
    ensures row.ActionButton? ==> (row.caption == Some(GithubLabel) <==> IsExample(package) && !IsDependency(package) && !IsPlugin(package))
    ensures row != ActionButton(Some(RemoveLabel))
  {
    if IsDependency(package) && Manifest.IsDependency(manifest, package.packageName) then Checkmark
    else ActionButton(ButtonText(package, false))
  }

  /**
   The row with the label reflecting whether the manifest mentions the
   package, which is what the label's `isInstalled` parameter is for.
   */
  function CreateElementCorrected(package: Package, manifest: string): (row: Row)
    ensures row.Checkmark? <==> IsDependency(package) && Manifest.IsDependency(manifest, package.packageName)
    ensures row == ActionButton(Some(RemoveLabel)) <==>
              !IsDependency(package) && IsPlugin(package) && Manifest.IsDependency(manifest, package.packageName)
  {
    var installed := Manifest.IsDependency(manifest, package.packageName);
    if IsDependency(package) && installed then Checkmark
    else ActionButton(ButtonText(package, installed))
  }

  /**
   The rows of one section, in order, as `CreateSection` builds them with
   `CreateElement`: a checkmark exactly for an installed dependency, an
   import button for any other dependency or plugin, a github button for
   an example, and no button ever offers removal.
   */
  function SectionRows(section: seq<Package>, manifest: string): (rows: seq<Row>)
    ensures |rows| == |section|
    ensures forall i :: 0 <= i < |section| ==>
              (rows[i].Checkmark? <==> IsDependency(section[i]) && Manifest.IsDependency(manifest, section[i].packageName))
    ensures forall i :: 0 <= i < |section| ==> rows[i] != ActionButton(Some(RemoveLabel))
    ensures forall i :: 0 <= i < |section| ==>
              (rows[i].ActionButton? ==> (rows[i].caption.Some? <==> IsDependency(section[i]) || IsPlugin(section[i]) || IsExample(section[i])))
    ensures forall i :: 0 <= i < |section| ==>
              (rows[i].ActionButton? ==> (rows[i].caption == Some(ImportLabel) <==> IsDependency(section[i]) || IsPlugin(section[i])))
    ensures forall i :: 0 <= i < |section| ==>
              (rows[i].ActionButton? ==>
                 (rows[i].caption == Some(GithubLabel) <==> IsExample(section[i]) && !IsDependency(section[i]) && !IsPlugin(section[i])))
  {
    seq(|section|, i requires 0 <= i < |section| => CreateElement(section[i], manifest))
  }

  /**
   As drawn, the plugin section is two "Import into project" buttons
   whatever the manifest holds, installed plugins included.
   */
  lemma PluginSectionRows(manifest: string)
    ensures SectionRows(CatalogueSections(Packages).plugins, manifest)
            == [ActionButton(Some(ImportLabel)), ActionButton(Some(ImportLabel))]
  {
    CatalogueSectionsExact();
    PluginKinds();
  }

  /** What a click asks for: a manifest edit, a URL to open, or nothing. */
  datatype Click = RequestSet(packageName: string, uri: string, isSet: bool) | OpenUrl(url: string) | NoAction

  /**
   `OnClick`: a dependency is always set; a plugin is set when the manifest
   does not mention it and unset otherwise; an example opens its repository.
   The locator passed along is the entry's `GetUri`.
   */
  function OnClick(package: Package, version: string, manifest: string): (c: Click)
    ensures IsDependency(package) ==> c.RequestSet? && c.isSet
    ensures !IsDependency(package) && IsPlugin(package) ==>
              c.RequestSet? && (c.isSet <==> !Manifest.IsDependency(manifest, package.packageName))
    ensures !IsDependency(package) && !IsPlugin(package) && IsExample(package) ==>
              c == OpenUrl(RepositoryUrl(package.packageName))
    ensures !IsDependency(package) && !IsPlugin(package) && !IsExample(package) ==> c == NoAction
    ensures c.RequestSet? ==> c.packageName == package.packageName && GetUri(package, version) == Some(c.uri)
  {
    var uri := GetUri(package, version);
    if IsDependency(package) then RequestSet(package.packageName, uri.value, true)
    else if IsPlugin(package) then
      RequestSet(package.packageName, uri.value, !Manifest.IsDependency(manifest, package.packageName))
    else if IsExample(package) then OpenUrl(uri.value)
    else NoAction
  }

  /**
   Carry out a click on the manifest text: a set or unset request is the
   manifest edit `SetDependency`, and nothing else touches the text.
   */
  function Perform(click: Click, manifest: string, newline: string): (w: Manifest.ManifestWrite)
    ensures !click.RequestSet? ==> w == Manifest.ManifestWrite(manifest, false)
    ensures click.RequestSet? ==> w == Manifest.SetDependency(manifest, newline, click.packageName, click.uri, click.isSet)
    ensures click.RequestSet? && click.isSet ==> Manifest.IsDependency(w.text, click.packageName)
  {
    match click
    case RequestSet(name, uri, isSet) => Manifest.SetDependency(manifest, newline, name, uri, isSet)
    case _ => Manifest.ManifestWrite(manifest, false)
  }

  /** Clicking a dependency's button leaves its row showing the checkmark. */
  lemma DependencyClickShowsCheckmark(package: Package, version: string, manifest: string, newline: string)
    requires IsDependency(package)
    ensures var after := Perform(OnClick(package, version, manifest), manifest, newline).text;
            CreateElementCorrected(package, after) == Checkmark
  {
  }

  /**
   Clicking a plugin the manifest does not mention adds it, and the
   corrected row then offers removal. Clicking again (with the same running
   version) takes the manifest back to exactly what it was. Both clicks
   write the file.
   */
  lemma PluginClickTwiceRestores(package: Package, version: string, manifest: string, newline: string)
    requires IsPlugin(package) && !IsDependency(package)
    requires !Manifest.IsDependency(manifest, package.packageName)
    requires Manifest.LineBreak(newline) && '\n' !in package.packageName && '\n' !in version
    ensures var first := Perform(OnClick(package, version, manifest), manifest, newline);
            && first.changed
            && CreateElementCorrected(package, first.text) == ActionButton(Some(RemoveLabel))
            && Perform(OnClick(package, version, first.text), first.text, newline) == Manifest.ManifestWrite(manifest, true)
  {
    PluginNeverExample(package);
    var uri := RepositoryUrl(package.packageName) + "#asm-" + version;
    assert '\n' !in uri by {
      assert '\n' !in GithubPrefix && '\n' !in ".git" && '\n' !in "#asm-";
    }
    Manifest.SetThenUnsetRestores(manifest, newline, package.packageName, uri);
  }

  /**
   After a click installs a plugin, the corrected row offers removal while
   the row as written still offers import, though a second click removes it.
   */
  lemma InstalledPluginLabels(package: Package, version: string, manifest: string, newline: string)
    requires IsPlugin(package) && !IsDependency(package)
    requires !Manifest.IsDependency(manifest, package.packageName)
    ensures var after := Perform(OnClick(package, version, manifest), manifest, newline).text;
            && CreateElementCorrected(package, after) == ActionButton(Some(RemoveLabel))
            && CreateElement(package, after) == ActionButton(Some(ImportLabel))
            && OnClick(package, version, after) == RequestSet(package.packageName, GetUri(package, version).value, false)
  {
    PluginNeverExample(package);
  }

  /** Clicking an example never edits the manifest; it only yields the repository to open. */
  lemma ExampleClickOnlyOpens(package: Package, version: string, manifest: string, newline: string)
    requires IsExample(package) && !IsDependency(package)
    ensures OnClick(package, version, manifest) == OpenUrl(RepositoryUrl(package.packageName))
    ensures Perform(OnClick(package, version, manifest), manifest, newline) == Manifest.ManifestWrite(manifest, false)
  {
    PluginNeverExample(package);
  }

  /**
   As written, an installed plugin's button reads "Import into project"
   while clicking it removes the plugin: the catalogue's locking plugin on
   the manifest a set click leaves behind (from "{}", for the running
   version), whose next click deletes the entry line and writes the file.
   */
  lemma InstalledPluginLabelMismatch(version: string)
    ensures var uri := GetUri(Locking, version).value;
            var manifest := Manifest.SetDependency("{}", "\n", Locking.packageName, uri, true).text;
            && CreateElement(Locking, manifest) == ActionButton(Some(ImportLabel))
            && OnClick(Locking, version, manifest) == RequestSet(Locking.packageName, uri, false)
            && Perform(OnClick(Locking, version, manifest), manifest, "\n").changed
  {
    PluginKinds();
    PluginNeverExample(Locking);
    var uri := GetUri(Locking, version).value;
    ContainsNeedsLength("{}", Locking.packageName);
    Manifest.SetLeavesEntryLine("{}", "\n", Locking.packageName, uri);
  }

  /**
   With the corrected row, every button's label names what its click does:
   "Remove" exactly for an unset request, "Import" exactly for a set
   request, the github link exactly for opening a URL, no label exactly for
   no action.
   */
  lemma CorrectedLabelMatchesClick(package: Package, version: string, manifest: string)
    ensures var row := CreateElementCorrected(package, manifest);
            var click := OnClick(package, version, manifest);
            row.ActionButton? ==>
              && (row.caption == Some(RemoveLabel) <==> click.RequestSet? && !click.isSet)
              && (row.caption == Some(ImportLabel) <==> click.RequestSet? && click.isSet)
              && (row.caption == Some(GithubLabel) <==> click.OpenUrl?)
              && (row.caption.None? <==> click.NoAction?)
  {
    PluginNeverExample(package);
  }
}

=== FILE: strings.dfy ===
/**
 The `System.String` operations the package manager panel relies on,
 modelled over `seq<char>` with ordinal (character-by-character)
 comparison: `Contains`, `LastIndexOf`, `Insert` and `Replace(pattern, "")`,
 plus an `Option` standing for a string reference that may be `null`.
 */
module Strings {

  /** A C# string reference: `None` is `null`. */
  datatype Option<+T> = None | Some(value: T)

  /** `p` occurs in `s` starting at index `i`. */
  ghost predicate OccursAt(s: string, p: string, i: int) {
    0 <= i && i + |p| <= |s| && s[i..i + |p|] == p
  }

  /** Ordinal substring test (`s.Contains(p)`); the empty string occurs everywhere. */
  predicate Contains(s: string, p: string)
    decreases |s|
  {
    p <= s || (|s| > 0 && Contains(s[1..], p))
  }

  /** `Contains` holds exactly when there is a position at which `p` occurs. */
  lemma {:induction false} ContainsIff(s: string, p: string)
    ensures Contains(s, p) <==> exists i :: OccursAt(s, p, i)
    decreases |s|
  {
    if p <= s {
      assert OccursAt(s, p, 0);
    } else if |s| == 0 {
    } else {
      ContainsIff(s[1..], p);
      if Contains(s[1..], p) {
        var i :| OccursAt(s[1..], p, i);
        assert s[i + 1..i + 1 + |p|] == s[1..][i..i + |p|];
        assert OccursAt(s, p, i + 1);
      } else {
        forall i | 0 <= i && i + |p| <= |s|
          ensures !OccursAt(s, p, i)
        {
          if i == 0 {
            assert s[..|p|] != p;
          } else {
            assert s[i..i + |p|] == s[1..][i - 1..i - 1 + |p|];
            assert !OccursAt(s[1..], p, i - 1);
          }
        }
      }
    }
  }

  /** An occurrence at a known position makes `Contains` true. */
  lemma ContainsAt(s: string, p: string, i: int)
    requires OccursAt(s, p, i)
    ensures Contains(s, p)
  {
    ContainsIff(s, p);
  }

  /** Without `Contains`, `p` occurs nowhere in `s`. */
  lemma NotContainsNowhere(s: string, p: string, i: int)
    requires !Contains(s, p)
    ensures !OccursAt(s, p, i)
  {
    ContainsIff(s, p);
  }

  /** Containment is transitive: a string containing `t` contains everything `t` contains. */
  lemma ContainsTransitive(s: string, t: string, p: string)
    ensures Contains(s, t) && Contains(t, p) ==> Contains(s, p)
  {
    if Contains(s, t) && Contains(t, p) {
      ContainsIff(s, t);
      ContainsIff(t, p);
      var i :| OccursAt(s, t, i);
      var j :| OccursAt(t, p, j);
      forall k | 0 <= k < |p|
        ensures s[i + j + k] == p[k]
      {
        assert s[i + j + k] == s[i..i + |t|][j + k];
      }
      ContainsAt(s, p, i + j);
    }
  }

  /** A string is never contained in a shorter one. */
  lemma ContainsNeedsLength(s: string, p: string)
    ensures Contains(s, p) ==> |p| <= |s|
    decreases |s|
  {
    if |s| > 0 {
      ContainsNeedsLength(s[1..], p);
    }
  }

  /** A string contains each of its slices. */
  lemma ContainsSlice(s: string, i: int, j: int)
    requires 0 <= i <= j <= |s|
    ensures Contains(s, s[i..j])
  {
    ContainsAt(s, s[i..j], i);
  }

  /**
   Index of the last `c` in `s`, or -1 when there is none
   (`s.LastIndexOf(",")` for a one-character pattern, compared ordinally).
   */
  function LastIndexOf(s: string, c: char): (r: int)
    ensures -1 <= r < |s|
    ensures r >= 0 ==> s[r] == c
    ensures forall j :: r < j < |s| ==> s[j] != c
    decreases |s|
  {
    if |s| == 0 then -1
    else if s[|s| - 1] == c then |s| - 1
    else LastIndexOf(s[..|s| - 1], c)
  }

  /** Nothing after the last `c` is a `c`. */
  lemma LastIndexOfSuffix(s: string, c: char)
    ensures c !in s[LastIndexOf(s, c) + 1..]
  {
    var r := LastIndexOf(s, c);
    var tail := s[r + 1..];
    forall j | 0 <= j < |tail|
      ensures tail[j] != c
    {
      assert tail[j] == s[r + 1 + j];
    }
  }

  /**
   `s.Insert(i, t)`: `t` placed at index `i`; .NET throws for an index
   outside `0..|s|`, so callers must stay inside it.
   */
  function Insert(s: string, i: int, t: string): (r: string)
    requires 0 <= i <= |s|
    ensures |r| == |s| + |t|
    ensures r[..i] == s[..i] && r[i..i + |t|] == t && r[i + |t|..] == s[i..]
    ensures r[..i] + r[i + |t|..] == s
  {
    s[..i] + t + s[i..]
  }

  /** The inserted text, with what followed it, comes after the kept prefix. */
  lemma InsertSplits(s: string, i: int, t: string)
    requires 0 <= i <= |s|
    ensures Insert(s, i, t) == s[..i] + (t + s[i..])
  {
    assert s[..i] + t + s[i..] == s[..i] + (t + s[i..]);
  }

  /**
   `s.Replace(p, "")`: scanning left to right, every occurrence of `p` that
   does not overlap an occurrence already removed is deleted. .NET throws
   for an empty pattern.
   */
  function RemoveAll(s: string, p: string): (r: string)
    requires |p| > 0
    ensures |r| <= |s|
    ensures !Contains(s, p) ==> r == s
    ensures Contains(s, p) ==> |r| < |s|
    decreases |s|
  {
    if |s| == 0 then s
    else if p <= s then RemoveAll(s[|p|..], p)
    else [s[0]] + RemoveAll(s[1..], p)
  }

  /** A leading occurrence is removed and the scan resumes right after it. */
  lemma RemoveAllLeading(p: string, c: string)
    requires |p| > 0
    ensures RemoveAll(p + c, p) == RemoveAll(c, p)
  {
    assert p <= p + c;
    assert (p + c)[|p|..] == c;
  }

  /** Where the pattern does not start at the front, the first character is kept. */
  lemma RemoveAllKeepsFirst(s: string, p: string)
    requires |p| > 0 && |s| > 0
    requires !OccursAt(s, p, 0)
    ensures RemoveAll(s, p) == [s[0]] + RemoveAll(s[1..], p)
  {
  }

  /** An occurrence in the tail of `s` is an occurrence in `s`, one further on. */
  lemma OccursAtTail(s: string, p: string, i: int)
    requires |s| > 0 && i >= 0
    ensures OccursAt(s[1..], p, i) <==> OccursAt(s, p, i + 1)
  {
    if 0 <= i && i + |p| <= |s[1..]| {
      assert s[1..][i..i + |p|] == s[i + 1..i + 1 + |p|];
    }
  }

  /** `p` starts at none of the first `n` positions of `s`. */
  ghost predicate NoOccurrenceBefore(s: string, p: string, n: int) {
    forall i :: 0 <= i < n ==> !OccursAt(s, p, i)
  }

  /** Dropping the first character keeps the remaining positions free of `p`. */
  lemma NoOccurrenceInTail(a: string, b: string, p: string)
    requires |a| > 0 && NoOccurrenceBefore(a + b, p, |a|)
    ensures NoOccurrenceBefore(a[1..] + b, p, |a| - 1)
  {
    var s, t := a + b, a[1..] + b;
    assert s[1..] == t;
    forall i | 0 <= i < |a| - 1
      ensures !OccursAt(t, p, i)
    {
      OccursAtTail(s, p, i);
    }
  }

  /** Putting the head back in front of the tail and a suffix. */
  lemma ConsAppend(a: string, c: string)
    requires |a| > 0
    ensures [a[0]] + (a[1..] + c) == a + c
  {
    assert [a[0]] + a[1..] == a;
  }

  /**
   A prefix `a` at none of whose positions the pattern starts is kept as it
   is, and removal continues on what follows.
   */
  lemma {:induction false} RemoveAllSkip(a: string, b: string, p: string)
    requires |p| > 0
    requires NoOccurrenceBefore(a + b, p, |a|)
    ensures RemoveAll(a + b, p) == a + RemoveAll(b, p)
    decreases |a|
  {
    if |a| == 0 {
      assert a + b == b;
    } else {
      var s, t := a + b, a[1..] + b;
      assert s[1..] == t;
      assert !OccursAt(s, p, 0);
      RemoveAllKeepsFirst(s, p);
      NoOccurrenceInTail(a, b, p);
      RemoveAllSkip(a[1..], b, p);
      ConsAppend(a, RemoveAll(b, p));
    }
  }

  /** The gaps joined back together with `p` between each two of them. */
  function Join(gaps: seq<string>, p: string): string
    requires |gaps| > 0
    decreases |gaps|
  {
    if |gaps| == 1 then gaps[0] else gaps[0] + p + Join(gaps[1..], p)
  }

  /** The gaps concatenated with nothing between them. */
  function Concat(gaps: seq<string>): string
    decreases |gaps|
  {
    if |gaps| == 0 then [] else gaps[0] + Concat(gaps[1..])
  }

  /**
   `gaps` splits `s` at the copies of `p` a left-to-right scan finds:
   joining the gaps with `p` gives `s`, no copy of `p` starts inside a gap
   before the copy that ends it, and the last gap holds no copy at all.
   */
  ghost predicate ScanGaps(s: string, p: string, gaps: seq<string>) {
    && |gaps| > 0
    && Join(gaps, p) == s
    && !Contains(gaps[|gaps| - 1], p)
    && forall i :: 0 <= i < |gaps| - 1 ==> NoOccurrenceBefore(Join(gaps[i..], p), p, |gaps[i]|)
  }

  /** `r` is `s` with the copies of `p` a left-to-right scan finds cut out, and nothing else. */
  ghost predicate DeletesScannedCopies(s: string, p: string, r: string) {
    exists gaps :: ScanGaps(s, p, gaps) && r == Concat(gaps)
  }

  /** A copy of `p` at the front of `s` is exactly `p` being a prefix of `s`. */
  lemma OccursAtFront(s: string, p: string)
    ensures OccursAt(s, p, 0) <==> p <= s
  {
  }

  /** Gluing a character to the first gap glues it to the joined text and to the concatenation. */
  lemma GapsCons(c: char, gaps: seq<string>, p: string)
    requires |gaps| > 0
    ensures var g := [[c] + gaps[0]] + gaps[1..];
            Join(g, p) == [c] + Join(gaps, p) && Concat(g) == [c] + Concat(gaps)
  {
    var g := [[c] + gaps[0]] + gaps[1..];
    assert g[1..] == gaps[1..];
    if |gaps| > 1 {
      assert [c] + gaps[0] + p + Join(gaps[1..], p) == [c] + (gaps[0] + p + Join(gaps[1..], p));
    }
    assert [c] + gaps[0] + Concat(gaps[1..]) == [c] + (gaps[0] + Concat(gaps[1..]));
  }

  /** A leading copy of `p` opens an empty first gap. */
  lemma ScanGapsSkip(s: string, p: string, rest: seq<string>)
    requires |p| > 0 && p <= s
    requires ScanGaps(s[|p|..], p, rest)
    ensures ScanGaps(s, p, [[]] + rest) && Concat([[]] + rest) == Concat(rest)
  {
    var gaps := [[]] + rest;
    assert gaps[1..] == rest;
    assert s == [] + p + s[|p|..];
    forall i | 0 <= i < |gaps| - 1
      ensures NoOccurrenceBefore(Join(gaps[i..], p), p, |gaps[i]|)
    {
      if i > 0 {
        assert gaps[i..] == rest[i - 1..];
      }
    }
  }

  /** Where no copy starts at the front, the first character joins the first gap. */
  lemma ScanGapsKeep(s: string, p: string, rest: seq<string>)
    requires |p| > 0 && |s| > 0 && !(p <= s)
    requires ScanGaps(s[1..], p, rest)
    ensures ScanGaps(s, p, [[s[0]] + rest[0]] + rest[1..])
    ensures Concat([[s[0]] + rest[0]] + rest[1..]) == [s[0]] + Concat(rest)
  {
    var gaps := [[s[0]] + rest[0]] + rest[1..];
    GapsCons(s[0], rest, p);
    assert [s[0]] + s[1..] == s;
    if |rest| == 1 {
      assert rest[0] == s[1..];
    }
    KeepGapsFree(s, p, rest);
  }

  /** The gaps of `ScanGapsKeep` leave no copy unscanned. */
  lemma KeepGapsFree(s: string, p: string, rest: seq<string>)
    requires |p| > 0 && |s| > 0 && !(p <= s)
    requires ScanGaps(s[1..], p, rest)
    requires Join([[s[0]] + rest[0]] + rest[1..], p) == s
    ensures var gaps := [[s[0]] + rest[0]] + rest[1..];
            forall i :: 0 <= i < |gaps| - 1 ==> NoOccurrenceBefore(Join(gaps[i..], p), p, |gaps[i]|)
  {
    var gaps := [[s[0]] + rest[0]] + rest[1..];
    forall i | 0 <= i < |gaps| - 1
      ensures NoOccurrenceBefore(Join(gaps[i..], p), p, |gaps[i]|)
    {
      if i == 0 {
        KeepFirstGapFree(s, p, rest);
      } else {
        LaterGapFree(gaps, rest, p, i);
      }
    }
  }

  /** Gaps that agree from the second on agree on where copies start after the first. */
  lemma LaterGapFree(g: seq<string>, rest: seq<string>, p: string, i: int)
    requires 0 < i < |rest| - 1 && |g| == |rest| && g[1..] == rest[1..]
    requires NoOccurrenceBefore(Join(rest[i..], p), p, |rest[i]|)
    ensures NoOccurrenceBefore(Join(g[i..], p), p, |g[i]|)
  {
    assert g[i..] == rest[i..] by {
      assert g[i..] == g[1..][i - 1..] && rest[i..] == rest[1..][i - 1..];
    }
  }

  /** The first gap of `ScanGapsKeep` is free of copies. */
  lemma KeepFirstGapFree(s: string, p: string, rest: seq<string>)
    requires |p| > 0 && |s| > 0 && !(p <= s) && |rest| > 1
    requires ScanGaps(s[1..], p, rest)
    requires Join([[s[0]] + rest[0]] + rest[1..], p) == s
    ensures var gaps := [[s[0]] + rest[0]] + rest[1..];
            NoOccurrenceBefore(Join(gaps[0..], p), p, |gaps[0]|)
  {
    var gaps := [[s[0]] + rest[0]] + rest[1..];
    FirstGapFree(s, p, rest);
    assert gaps[0..] == gaps;
  }

  /** No copy starts in the front character or in the tail's first gap. */
  lemma FirstGapFree(s: string, p: string, rest: seq<string>)
    requires |p| > 0 && |s| > 0 && !(p <= s) && |rest| > 1
    requires ScanGaps(s[1..], p, rest)
    ensures NoOccurrenceBefore(s, p, |rest[0]| + 1)
  {
    assert rest[0..] == rest;
    assert NoOccurrenceBefore(s[1..], p, |rest[0]|);
    forall j | 0 <= j < |rest[0]| + 1
      ensures !OccursAt(s, p, j)
    {
      if j == 0 {
        OccursAtFront(s, p);
      } else {
        OccursAtTail(s, p, j - 1);
      }
    }
  }

  /** Scan gaps for `s`, built by following the scan. */
  lemma {:induction false} ScanGapsOf(s: string, p: string) returns (gaps: seq<string>)
    requires |p| > 0
    ensures ScanGaps(s, p, gaps) && RemoveAll(s, p) == Concat(gaps)
    decreases |s|
  {
    if |s| == 0 {
      gaps := [s];
    } else if p <= s {
      var rest := ScanGapsOf(s[|p|..], p);
      ScanGapsSkip(s, p, rest);
      gaps := [[]] + rest;
    } else {
      var rest := ScanGapsOf(s[1..], p);
      ScanGapsKeep(s, p, rest);
      gaps := [[s[0]] + rest[0]] + rest[1..];
    }
  }

  /** Scan gaps after the first split the rest of the text the same way. */
  lemma ScanGapsTail(s: string, p: string, gaps: seq<string>)
    requires ScanGaps(s, p, gaps) && |gaps| > 1
    ensures |gaps[0]| + |p| <= |s|
    ensures s[..|gaps[0]|] == gaps[0] && OccursAt(s, p, |gaps[0]|)
    ensures ScanGaps(s[|gaps[0]| + |p|..], p, gaps[1..])
  {
    var k := |gaps[0]|;
    var tail := gaps[1..];
    assert s == gaps[0] + p + Join(tail, p);
    assert s[..k] == gaps[0];
    assert s[k..k + |p|] == p;
    assert s[k + |p|..] == Join(tail, p);
    forall i | 0 <= i < |tail| - 1
      ensures NoOccurrenceBefore(Join(tail[i..], p), p, |tail[i]|)
    {
      assert tail[i..] == gaps[i + 1..];
    }
  }

  /** Where the first gap of a scan ends, a copy of `p` starts, and none before. */
  lemma FirstGapEnds(s: string, p: string, gaps: seq<string>)
    requires |p| > 0 && ScanGaps(s, p, gaps)
    ensures |gaps| > 1 ==> OccursAt(s, p, |gaps[0]|)
    ensures |gaps| == 1 ==> gaps[0] == s && !Contains(s, p)
    ensures forall j :: 0 <= j < |gaps[0]| ==> !OccursAt(s, p, j)
  {
    if |gaps| > 1 {
      ScanGapsTail(s, p, gaps);
      assert gaps[0..] == gaps;
    } else {
      forall j | 0 <= j < |gaps[0]|
        ensures !OccursAt(s, p, j)
      {
        NotContainsNowhere(s, p, j);
      }
    }
  }

  /** A text has one scan split at most: both first gaps end at the first copy. */
  lemma {:induction false} ScanGapsUnique(s: string, p: string, g: seq<string>, h: seq<string>)
    requires |p| > 0 && ScanGaps(s, p, g) && ScanGaps(s, p, h)
    ensures g == h
    decreases |s|
  {
    FirstGapEnds(s, p, g);
    FirstGapEnds(s, p, h);
    if |g| > 1 && |h| > 1 {
      ScanGapsTail(s, p, g);
      ScanGapsTail(s, p, h);
      assert |g[0]| == |h[0]|;
      ScanGapsUnique(s[|g[0]| + |p|..], p, g[1..], h[1..]);
      assert g == [g[0]] + g[1..] && h == [h[0]] + h[1..];
    }
  }

  /**
   `Replace(p, "")` is characterised by its scan: a text `r` is the result
   exactly when it is `s` with the scanned copies of `p` cut out.
   */
  lemma RemoveAllIffDeletesScannedCopies(s: string, p: string, r: string)
    requires |p| > 0
    ensures DeletesScannedCopies(s, p, r) <==> r == RemoveAll(s, p)
  {
    var gaps := ScanGapsOf(s, p);
    if DeletesScannedCopies(s, p, r) {
      var h :| ScanGaps(s, p, h) && r == Concat(h);
      ScanGapsUnique(s, p, gaps, h);
    }
  }
}
